=== FILE: README.md ===
# Shopping-assistant search core, modelled in Dafny

This project models the deterministic core of a marketplace shopping assistant. A language model turns a
user's request into one call of a product-search tool. The tool validates its arguments against the
`ProductSearchArgs` schema and sends one marketplace search. It then formats at most five result records
into text lines. The HTTP `/search` endpoint reads that text back from the agent's last intermediate step.
It answers `{"products": [...]}` or `{"error": "System error: ..."}`.

Three pieces are modelled as pure functions over JSON-like values:

- `SearchArgs` (`search_args.dfy`): the argument record with default filling, and the marshaling of a
  record into a search request.
- `ProductFormat` (`product_format.dfy`): the formatter `get_product_details`. It has the 5-record cap,
  the rating fallback, the two binary phrases, the skip-or-abort policy for bad records and the two
  fallback messages.
- `SearchEndpoint` (`search_endpoint.dfy`): the endpoint body. It takes the last step's observation,
  splits it, strips and filters the lines, and builds the error payload.

The other modules support these three:

- `Wrappers` has `Option` and `Result`.
- `PyJson` has JSON values with Python's truthiness, `len`, subscripting and slicing. Numbers are
  reals, so a price or an average rating such as 4.5 is kept, and 0.0 is falsy. Each Python exception is
  a `Failure`.
- `PyText` has `str.isspace`, `strip`, `split` and `join`.
- `Pipeline` composes the pieces. Its main lemma is the round trip from the formatter's lines, through
  the joined text, back to the endpoint's product list.

The external collaborators become inputs:

- The marketplace search is a value `result : Json`. In `Pipeline.RunTool` it is a function
  `search : SearchRequest -> Json`.
- Awaiting the agent is an `Invocation`: either its output dict or the text of the exception it raised.
- Python's `str()` of the shown values and the wording of the line template are a `render` parameter.
  It receives a `Summary` of name, price, rating, availability phrase and shipping phrase.
- Python's `str()` of an exception raised while reading the agent's output is a `describe` parameter.

In two places the code does something other than its own comments say. The model follows the code:

- The per-record `except` catches only `AttributeError`. A record that lacks `name`, `price`,
  `mainAttribute`, `IsAvailable` or `isFreeShipping` raises `KeyError`, and that aborts the whole call,
  although the comment at src/app/utils/utils.py:74 says such records are skipped. The fields are read
  in source order, and the rating is read before `IsAvailable`. So a record whose truthy `rating` is not
  a dict is skipped even if its last two fields are missing.
- An empty `products` list inside a truthy result gives the "no valid product" message, not the "no
  products" one that the comment at src/app/utils/utils.py:53 announces. The "no products" message is
  only for a falsy result.

Other places where the code accepts more than the schema's field descriptions (src/app/create_agent.py:19-43) state:

- `query` is not checked to be non-empty, although its description (line 21) asks for a search term.
- `minRating` is not checked to lie in 0..5, although its description (line 36) says "out of 5".
- Prices are not checked for sign or for `minPrice <= maxPrice`, although their descriptions (lines 26
  and 31) call them a minimum and a maximum price.
- `freeShipping` is not checked to be 0 or 1, although its description (line 41) names only those values.
- The schema's field description (src/app/create_agent.py:36) says the `minRating` default is 3, but the
  value in force (line 35) is 4.

## Model

| member | source | states |
|---|---|---|
| SearchArgs.Validate | src/app/create_agent.py:19-43 | `query` is the only required field, and a missing query is the only possible error. Omitted fields take `None`, `None`, 4 and 0. Supplied values are kept unchanged: no range, sign or cross-field check. |
| SearchArgs.ValidateSupplied | src/app/create_agent.py:19-43 | Re-validating the fields of a validated record gives the same record back. |
| SearchArgs.ValidateIdempotent | src/app/create_agent.py:24-43 | Filling defaults twice gives the same result as filling them once. |
| SearchArgs.RequestFor | src/app/utils/utils.py:23-42 | A keyword that is not passed takes the search function's default (`None`, `None`, 4, 0). A passed value lands unchanged in its filter slot, and the query goes to `q`. |
| SearchArgs.Marshal | src/app/utils/utils.py:32-42 | The request keeps every field of the record: `ArgsOf` reads the record back exactly. |
| SearchArgs.MarshalArgsOf | src/app/utils/utils.py:32-42 | Every search request is the marshaling of the record read from it, so marshaling is a bijection. |
| SearchArgs.DefaultsAgree | src/app/utils/utils.py:23-27 | The schema defaults equal the search function's parameter defaults. Forwarding only the supplied fields, or every validated field, sends the same request. |
| SearchArgs.OmittedEqualsDefault | src/app/utils/utils.py:24-27 | Omitting a keyword and passing its default value send identical requests. |
| SearchArgs.NoRatingOrShippingCheck | src/app/create_agent.py:34-43 | A `minRating` outside 0..5 or a `freeShipping` other than 0 or 1 validates and reaches the filters unchanged. |
| SearchArgs.NoPriceRangeCheck | src/app/create_agent.py:24-33 | Inverted or negative price bounds validate and reach the filters unchanged. |
| PyText.Strip | src/app/main.py:31 | `strip()` returns a middle slice whose removed prefix and suffix are all whitespace, and the slice neither starts nor ends with whitespace. The result is empty exactly when the input is blank. An already stripped string is unchanged. |
| PyText.Split | src/app/main.py:31 | `split("\n")` returns at least one piece, and no piece holds the separator. Joining the pieces gives the input back. |
| PyText.SplitJoin | src/app/utils/utils.py:82 | Splitting a `"\n".join` of separator-free parts gives the parts back. |
| PyText.JoinBlank | src/app/main.py:31 | A join on a whitespace separator is blank exactly when every part is blank. |
| ProductFormat.Rating | src/app/utils/utils.py:65 | The rating is `rating["average"]` when `rating` is present, truthy and has `average`. It is "Unknown" when `rating` is absent or falsy, or when `average` is missing. For a dict record, a truthy `rating` that is not a dict raises `AttributeError`, and that is the only case that raises. A record that is not a dict also raises `AttributeError`. |
| ProductFormat.ReadProduct | src/app/utils/utils.py:62-70 | A record reads without error exactly when it is a dict with all five fields and no bad rating. The shown name, price and rating come from the record. The in-stock phrase is shown exactly when `IsAvailable` is truthy, and the free-shipping phrase exactly when `isFreeShipping` is truthy. `AttributeError` arises exactly when the first three fields are present and the rating is bad. A non-dict record raises `TypeError`. Otherwise the exception is the `KeyError` of the first missing field in read order: `name`, `price`, `mainAttribute`, then, when the rating is not bad, `IsAvailable` and `isFreeShipping`. |
| ProductFormat.Guarded | src/app/utils/utils.py:60-75 | A record is rendered exactly when it reads without error. It is skipped exactly when its exception is one the handler catches. A rendered record carries the summary that was read, and a raising one carries exactly the exception the read raised. |
| ProductFormat.Collect | src/app/utils/utils.py:58-75 | The loop succeeds exactly when no record raises an uncaught exception. It yields at most one summary per record. It yields none exactly when every record is skipped. On failure, the error is that of the first raising record. |
| ProductFormat.FirstRecords | src/app/utils/utils.py:59 | The records examined are `products[:5]`: for a list, exactly its first five entries (or all of them), in input order. A result that is not a dict cannot be subscripted, a result without `products` raises `KeyError('products')`, and only a list or a string can be sliced. |
| ProductFormat.ReadableRecordsReport | src/app/utils/utils.py:58-82 | For a non-empty `products` list whose first five entries all read without error, the report has one line per examined record, and line i is the rendering of record i, in input order. |
| ProductFormat.Report | src/app/utils/utils.py:53-80 | A falsy result gives exactly the "no products" message. A successful outcome has between 1 and 5 lines. A missing or unsliceable `products` fails with that error. Otherwise the call succeeds exactly when no examined record raises an uncaught exception. |
| ProductFormat.Format | src/app/utils/utils.py:81-83 | The joined text succeeds or fails with the report. When no line contains a newline, splitting the text gives the lines back. |
| ProductFormat.FormatJoinsReport | src/app/utils/utils.py:82 | On success, the text is the report's lines joined by `"\n"`. |
| ProductFormat.CollectAppend | src/app/utils/utils.py:59-75 | The loop distributes over concatenation. An abort in the first part hides the second part. Otherwise the summaries of both parts are concatenated in order. |
| ProductFormat.SkippedRecordIsTransparent | src/app/utils/utils.py:73-75 | Inserting a skipped record anywhere leaves the outcome for the other records unchanged. |
| ProductFormat.ReadableRecordsAllRendered | src/app/utils/utils.py:58-72 | When every record reads without error, the i-th summary is that of the i-th record: one line per record, in input order. |
| ProductFormat.AllSkippedGivesNoValid | src/app/utils/utils.py:78-79 | If the result is truthy and every examined record is skipped, or there are none, the output is the single "no valid product" message. |
| ProductFormat.OnlyFirstFiveMatter | src/app/utils/utils.py:59 | Entries of `products` at index 5 or beyond never affect the output. |
| ProductFormat.MainAttributeIgnored | src/app/utils/utils.py:64-70 | `mainAttribute` must be present, but its value does not change the outcome. |
| ProductFormat.AsWrittenMissingNameAborts | src/app/utils/utils.py:62-75 | As written, a record without `name` next to a good record aborts the whole call with `KeyError('name')`. |
| ProductFormat.IntendedSkipsMissingFields | src/app/utils/utils.py:73-75 | With the corrected handler, a result whose every record lacks `name` gives the "no valid product" message. |
| ProductFormat.IntendedKeepsGoodRecord | src/app/utils/utils.py:58-82 | With the corrected handler, `{"products": [<complete record>, {}]}` gives exactly the complete record's line: the record without `name` is skipped. |
| ProductFormat.CollectLines | src/app/utils/utils.py:58-75 | The imperative loop, which appends a line per readable record and returns at the first uncaught exception, computes the rendered summaries of `Collect`. |
| ProductFormat.FormatProducts | src/app/utils/utils.py:46-83 | The formatter written as the source's control flow computes the same result as `Format`. |
| SearchEndpoint.Body | src/app/main.py:32-38 | The response object has exactly one key, `products` or `error`, and it carries the lines or the message. |
| SearchEndpoint.Observation | src/app/main.py:25-26 | For a list step, the final text is its second component when the step has more than one component and that component is a string; otherwise there is no text. A string step of two or more characters gives its second character, and a shorter one no text. A dict step with at most one key gives no text, and one with more raises `KeyError(1)`. Any other step raises `TypeError`. |
| SearchEndpoint.FinalText | src/app/main.py:22-26 | Absent or falsy steps give no text. A non-empty list is read through its last step only. A non-empty string gives no text, a non-empty dict raises `KeyError(-1)`, and a truthy number or boolean raises `TypeError`. |
| SearchEndpoint.KeepNonBlank | src/app/main.py:31 | No more lines than pieces come out. Every kept line is clean when no piece holds a newline. Nothing is kept exactly when every piece is blank. |
| SearchEndpoint.CleanLines | src/app/main.py:31 | Every returned line is non-empty, stripped and newline-free. The list is empty exactly when the text is blank. |
| SearchEndpoint.Respond | src/app/main.py:15-38 | An `Exception` from the agent gives `"System error: " + message`. An exception raised while reading the agent's output gives `"System error: "` followed by that exception's text. The response is an error exactly when one of these happened. No usable text gives `products: []`. Otherwise the products are the clean lines of the text, and the `if final_text` guard changes nothing. |
| SearchEndpoint.KeepNonBlankClean | src/app/main.py:31 | Clean lines pass through the strip-and-filter unchanged. |
| SearchEndpoint.CleanLinesOfJoin | src/app/main.py:31 | Round trip: clean lines joined by `"\n"` and read back are the same lines. |
| SearchEndpoint.KeepNonBlankSingle | src/app/main.py:31 | One piece gives its stripped form, or nothing when it is blank. |
| SearchEndpoint.KeepNonBlankAppend | src/app/main.py:31 | The filter works piece by piece and keeps the original order: the result for `a + b` is the result for `a` followed by the result for `b`. |
| SearchEndpoint.CleanLinesOfPieces | src/app/main.py:31 | Text made of newline-free pieces joined by `"\n"` gives exactly those pieces stripped, with the blank ones dropped. |
| SearchEndpoint.StrippedPiecesInOrder | src/app/main.py:31 | `"  a \nb"` gives `["a", "b"]`: a piece that needs stripping keeps its place. |
| SearchEndpoint.LastObservationResponse | src/app/main.py:23-32 | A string observation in the last step gives the clean lines of that string as `products`. |
| SearchEndpoint.JoinedPiecesReachResponse | src/app/main.py:23-32 | Newline-free pieces joined and carried as the last observation come back stripped, blank ones dropped, in order. |
| SearchEndpoint.OnlyLastStepConsulted | src/app/main.py:23-24 | Steps before the last never affect the response. |
| SearchEndpoint.NoObservationNoProducts | src/app/main.py:23-34 | No steps, an empty step list, or a last step whose observation is not a string each give `products: []`. |
| SearchEndpoint.JoinedLinesReachResponse | src/app/main.py:23-32 | Clean lines joined and carried as the last observation come back as exactly those products. |
| Pipeline.RunTool | src/app/utils/utils.py:46-55 | The tool fails validation exactly when the query is missing. A falsy search result gives the "no products" message for the validated query. After validation, the tool raises exactly when the report for the validated query raises, and with the same exception. Otherwise its text is the report's lines joined by `"\n"`. |
| Pipeline.FallbackMessagesClean | src/app/utils/utils.py:54-79 | Both fallback messages are single clean lines when the query holds no newline. |
| Pipeline.ReportLinesClean | src/app/utils/utils.py:70 | Every line of a successful report is clean when the query holds no newline and the template renders the summaries produced from this result as clean lines. |
| Pipeline.ReportReachesEndpoint | src/app/main.py:29-32 | When the formatter's text is the last observation, the endpoint answers with exactly the formatter's lines. A single message becomes a one-element list. |
| Pipeline.NoProductsReachesEndpoint | src/app/utils/utils.py:54-55 | A falsy search result reaches the caller as `products` holding the one "no products" message. |
| Pipeline.ToolReachesEndpoint | src/app/main.py:22-38 | A tool call whose formatter raises, with the exception passed on by the agent, gives `"System error: "` followed by that exception's text. A tool call whose text becomes the last observation gives the report's lines stripped, blank ones dropped, in order, when no line holds a newline. It gives exactly the report's lines when they are clean. |
| Pipeline.CleanToolReachesEndpoint | src/app/main.py:22-32 | With a newline-free query and a template that renders the summaries produced from this result as clean lines, a successful tool call reaches the caller as exactly the report's lines. |
| Pipeline.MissingNameReachesEndpoint | src/app/utils/utils.py:62-75 | For `{"products": [<complete record>, {}]}` under `except AttributeError`, the endpoint answers with the error for `KeyError('name')` instead of the complete record's line. |

## Findings

| source | as written | input that shows it | evidently intended | confidence | as-written member | corrected member |
|---|---|---|---|---|---|---|
| src/app/utils/utils.py:73-75 | `except AttributeError` only. A missing field raises `KeyError`, which escapes and fails the whole call, so the endpoint answers with an error. | `{"products": [<complete record>, {}]}` | Per the comment "Skip products with missing attributes", such records are skipped and the call returns the other lines, or the "no valid product" message. | medium-high; not executed | ProductFormat.AsWrittenMissingNameAborts, Pipeline.MissingNameReachesEndpoint | ProductFormat.IntendedKeepsGoodRecord, ProductFormat.IntendedSkipsMissingFields |

The formatter takes a `Handler` parameter. `AsWritten` catches `AttributeError` only. `Intended` also catches
`KeyError`. Every general lemma above (`Collect`, `Report`, the pipeline round trips) holds for both handlers.

## Left out

- An agent failure is modelled only as an `Exception`, the class `except Exception` at src/app/main.py:36
  catches. A `BaseException` that is not an `Exception` (a task cancellation, a keyboard interrupt) escapes
  the handler and no body is sent; `SearchEndpoint.Invocation` has no case for it.
- The language model, the prompt text and the agent executor loop are left out (create_agent.py:45-115). They
  are library behaviour. `max_iterations=1` is not modelled as "one search", because one tool-calling step
  may issue several calls.
- The `search_products_sync` event-loop wrapper is asyncio plumbing and is left out.
- The marketplace client, the token and the environment loading are left out. The search call is an input.
- The FastAPI app, routing, the pydantic request model and the health-check `root` are left out.
- The exact Persian wording of the line template, and Python's `str()` of price, rating and exceptions, are
  the `render` and `describe` parameters. The two fallback messages are modelled with their exact text.
- An explicit `None` for `minPrice`/`maxPrice` at the schema is left out. Whether pydantic accepts it depends on
  its major version. The schema input is "omitted or an integer". The search function itself accepts `None`.
- The schema's type coercion (strings or floats converted to `int`) is left out: fields arrive already typed.
- `get_product_details` with `query=None` is left out. The tool always supplies a string query.
- PyJson.Head: slicing a dict raises `TypeError` in the model. Python 3.12 raises `KeyError` there instead.
  Both abort the call, and only the exception text differs.
- Whether the agent library wraps a tool's exception before it reaches the endpoint cannot be seen. The
  pipeline lemmas assume the exception reaches the endpoint, or that the formatter's text is the last
  observation. `Pipeline.Relay` states this hand-off.

=== FILE: pipeline.dfy ===
/** How the pieces fit together: the search tool validates its arguments,
    sends one search request and formats the result; the endpoint then reads
    the formatted text back from the agent's last step. The agent in between
    is not modelled; these lemmas state what the endpoint answers when the
    tool's text is the last step's observation. */
module Pipeline {
  import opened Wrappers
  import opened PyJson
  import opened PyText
  import opened SearchArgs
  import opened ProductFormat
  import opened SearchEndpoint

  /** The search tool behind the agent: schema validation, one search with
      the validated arguments, then the formatter. A validation failure is
      reported before any search is made. */
  function RunTool(h: Handler, input: ArgsInput, search: SearchRequest -> Json, render: Summary -> string)
    : (r: Result<Result<string, PyError>, ValidationError>)
    ensures r.Failure? <==> input.query.None?
    ensures r.Success? && !Truthy(search(Marshal(Validate(input).value))) ==>
              r.value == Success(NoProductsMessage(input.query.value))
    ensures r.Success? ==>
              (r.value.Success? <==> Report(h, input.query.value, search(Marshal(Validate(input).value)), render).Success?)
    ensures r.Success? && r.value.Failure? ==>
              r.value.error == Report(h, input.query.value, search(Marshal(Validate(input).value)), render).error
    ensures r.Success? && r.value.Success? ==>
              r.value.value == Join(Report(h, input.query.value, search(Marshal(Validate(input).value)), render).value, Newline)
  {
    var args :- Validate(input);
    Success(Format(h, args.query, search(Marshal(args)), render))
  }

  /** Both fallback messages are single clean lines when the query has no
      newline. */
  lemma FallbackMessagesClean(query: string)
    requires Newline !in query
    ensures IsCleanLine(NoProductsMessage(query))
    ensures IsCleanLine(NoValidMessage(query))
  {
    var p1, s1 := "No products found for the query '", "'.";
    var p2, s2 := "هیچ محصول معتبری با عبارت «", "» یافت نشد.";
    assert forall k :: 0 <= k < |p1| ==> p1[k] != Newline;
    assert forall k :: 0 <= k < |s1| ==> s1[k] != Newline;
    assert forall k :: 0 <= k < |p2| ==> p2[k] != Newline;
    assert forall k :: 0 <= k < |s2| ==> s2[k] != Newline;
    assert NoProductsMessage(query) == p1 + query + s1;
    assert NoValidMessage(query) == p2 + query + s2;
  }

  /** The template renders each summary the loop produces for `result` as a
      clean line. Only the records actually in `result` are constrained, so
      a template that shows `name` as text can meet it. */
  predicate RendersClean(h: Handler, result: Json, render: Summary -> string) {
    var records := FirstRecords(result);
    records.Success? && Collect(h, records.value).Success? ==>
      forall i :: 0 <= i < |Collect(h, records.value).value| ==> IsCleanLine(render(Collect(h, records.value).value[i]))
  }

  /** Every line of a successful report is clean when the query has no
      newline and the template renders the summaries produced as clean
      lines. */
  lemma ReportLinesClean(h: Handler, query: string, result: Json, render: Summary -> string)
    requires Newline !in query
    requires RendersClean(h, result, render)
    requires Report(h, query, result, render).Success?
    ensures AllClean(Report(h, query, result, render).value)
  {
    FallbackMessagesClean(query);
  }

  /** The agent's output whose last intermediate step carries `text` as its
      observation. */
  function WithObservation(output: map<string, Json>, earlier: seq<Json>, action: Json, text: string): map<string, Json> {
    output[StepsKey := JArr(earlier + [JArr([action, JStr(text)])])]
  }

  /** Round trip through the agent: when the formatter's text is the last
      observation, the endpoint answers with exactly the formatter's lines. */
  lemma ReportReachesEndpoint(h: Handler, query: string, result: Json, render: Summary -> string,
                              output: map<string, Json>, earlier: seq<Json>, action: Json,
                              describe: PyError -> string)
    requires Report(h, query, result, render).Success?
    requires AllClean(Report(h, query, result, render).value)
    ensures Format(h, query, result, render).Success?
    ensures Respond(Returned(WithObservation(output, earlier, action, Format(h, query, result, render).value)), describe)
         == Products(Report(h, query, result, render).value)
  {
    FormatJoinsReport(h, query, result, render);
    JoinedLinesReachResponse(output, earlier, action, Report(h, query, result, render).value, describe);
  }

  /** A falsy search result reaches the caller as the one-line "no
      products" message. */
  lemma NoProductsReachesEndpoint(h: Handler, query: string, result: Json, render: Summary -> string,
                                  output: map<string, Json>, earlier: seq<Json>, action: Json,
                                  describe: PyError -> string)
    requires !Truthy(result) && Newline !in query
    ensures Respond(Returned(WithObservation(output, earlier, action, Format(h, query, result, render).value)), describe)
         == Products([NoProductsMessage(query)])
  {
    FallbackMessagesClean(query);
    ReportReachesEndpoint(h, query, result, render, output, earlier, action, describe);
  }

  /** What the agent hands the endpoint after running the tool once: the
      tool's text as the last observation, or the tool's exception passed on
      with `describe` as its `str()`. */
  function Relay(tool: Result<string, PyError>, output: map<string, Json>, earlier: seq<Json>, action: Json,
                 describe: PyError -> string): Invocation {
    match tool
    case Success(text) => Returned(WithObservation(output, earlier, action, text))
    case Failure(e) => Invocation.Raised(describe(e))
  }

  /** End to end: a validated tool call whose formatter raises gives the
      "System error" payload for that exception; one whose text reaches the
      endpoint gives the report's lines stripped, blank ones dropped, in
      order, and exactly the report's lines when those are clean. */
  lemma ToolReachesEndpoint(h: Handler, input: ArgsInput, search: SearchRequest -> Json, render: Summary -> string,
                            output: map<string, Json>, earlier: seq<Json>, action: Json, describe: PyError -> string)
    requires input.query.Some?
    ensures RunTool(h, input, search, render).Success?
    ensures var q, result := input.query.value, search(Marshal(Validate(input).value));
            var resp := Respond(Relay(RunTool(h, input, search, render).value, output, earlier, action, describe), describe);
            (Report(h, q, result, render).Failure? ==> resp == Error(SystemErrorPrefix + describe(Report(h, q, result, render).error)))
            && (Report(h, q, result, render).Success? && NewlineFree(Report(h, q, result, render).value) ==>
                  resp == Products(KeepNonBlank(Report(h, q, result, render).value)))
            && (Report(h, q, result, render).Success? && AllClean(Report(h, q, result, render).value) ==>
                  resp == Products(Report(h, q, result, render).value))
  {
    var q, result := input.query.value, search(Marshal(Validate(input).value));
    var rep := Report(h, q, result, render);
    if rep.Success? {
      assert RunTool(h, input, search, render).value == Success(Join(rep.value, Newline));
      if NewlineFree(rep.value) {
        JoinedPiecesReachResponse(output, earlier, action, rep.value, describe);
      }
      if AllClean(rep.value) {
        ReportReachesEndpoint(h, q, result, render, output, earlier, action, describe);
      }
    }
  }

  /** The source's template case: with a newline-free query and a template
      that renders the produced summaries cleanly, a tool call whose text
      reaches the endpoint gives exactly the report's lines. */
  lemma CleanToolReachesEndpoint(h: Handler, input: ArgsInput, search: SearchRequest -> Json, render: Summary -> string,
                                 output: map<string, Json>, earlier: seq<Json>, action: Json, describe: PyError -> string)
    requires input.query.Some? && Newline !in input.query.value
    requires RendersClean(h, search(Marshal(Validate(input).value)), render)
    requires Report(h, input.query.value, search(Marshal(Validate(input).value)), render).Success?
    ensures Respond(Relay(RunTool(h, input, search, render).value, output, earlier, action, describe), describe)
         == Products(Report(h, input.query.value, search(Marshal(Validate(input).value)), render).value)
  {
    ReportLinesClean(h, input.query.value, search(Marshal(Validate(input).value)), render);
    ToolReachesEndpoint(h, input, search, render, output, earlier, action, describe);
  }

  /** The record without `name` of the finding reaches the caller: under
      `except AttributeError` the endpoint answers with the `KeyError` for
      `name` instead of the other record's line. */
  lemma MissingNameReachesEndpoint(query: string, good: Json, render: Summary -> string,
                                   output: map<string, Json>, earlier: seq<Json>, action: Json,
                                   describe: PyError -> string)
    requires ReadProduct(good).Success?
    ensures var result := JObj(map["products" := JArr([good, JObj(map[])])]);
            Respond(Relay(Format(AsWritten, query, result, render), output, earlier, action, describe), describe)
              == Error(SystemErrorPrefix + describe(KeyError(JStr("name"))))
  {
    AsWrittenMissingNameAborts(query, good, render);
  }
}

=== FILE: product_format.dfy ===
/** The result formatter `get_product_details`: it turns a marketplace search
    result into at most five summary lines, or into one of two fallback
    messages. The search call itself is an input (`result`); Python's `str()`
    of the shown values and the wording of the line template are the
    `render` parameter. */
module ProductFormat {
  import opened Wrappers
  import opened PyJson
  import opened PyText

  /** Only this many leading records are examined. */
  const Cap: nat := 5

  /** The rating shown when a record carries none. */
  const Unknown: Json := JStr("Unknown")

  /** The message for a falsy search result. */
  function NoProductsMessage(query: string): string {
    "No products found for the query '" + query + "'."
  }

  /** The message for a truthy result from which no line survives
      ("no valid product was found for the phrase «query»"). */
  function NoValidMessage(query: string): string {
    "هیچ محصول معتبری با عبارت «" + query + "» یافت نشد."
  }

  /** The two mutually exclusive availability phrases of a line. */
  datatype Availability = InStock | OutOfStock

  /** The two mutually exclusive shipping phrases of a line. */
  datatype Shipping = FreeShipping | NoFreeShipping

  /** The data one summary line shows. `mainAttribute` is read from the
      record but shown nowhere, so it has no place here. */
  datatype Summary = Summary(name: Json, price: Json, rating: Json, availability: Availability, shipping: Shipping)

  /** Which exceptions the per-record `except` clause catches: `AsWritten`
      catches `AttributeError` only; `Intended` also catches the `KeyError`
      of a missing field, as the comment on that clause describes. */
  datatype Handler = AsWritten | Intended

  predicate Catches(h: Handler, e: PyError) {
    e.AttributeError? || (h == Intended && e.KeyError?)
  }

  /** A truthy `rating` without a `.get` method: reading it raises. */
  predicate BadRating(f: map<string, Json>) {
    "rating" in f && Truthy(f["rating"]) && !f["rating"].JObj?
  }

  /** All five fields the formatter subscripts are present. */
  predicate HasFields(f: map<string, Json>) {
    && "name" in f && "price" in f && "mainAttribute" in f
    && "IsAvailable" in f && "isFreeShipping" in f
  }

  /** The rating shown for a record: `rating["average"]` when `rating` is
      present, truthy and holds `average`, and "Unknown" otherwise; a truthy
      `rating` that is not a dict raises `AttributeError`. */
  function Rating(p: Json): (r: Result<Json, PyError>)
    ensures !p.JObj? ==> r == Failure(AttributeError)
    ensures p.JObj? ==> (r == Failure(AttributeError) <==> BadRating(p.fields))
    ensures p.JObj? && "rating" in p.fields && Truthy(p.fields["rating"]) && p.fields["rating"].JObj?
              && "average" in p.fields["rating"].fields
            ==> r == Success(p.fields["rating"].fields["average"])
    ensures p.JObj? && ("rating" !in p.fields || !Truthy(p.fields["rating"])) ==> r == Success(Unknown)
    ensures p.JObj? && "rating" in p.fields && p.fields["rating"].JObj? && "average" !in p.fields["rating"].fields
            ==> r == Success(Unknown)
  {
    match p
    case JObj(f) =>
      if "rating" in f && Truthy(f["rating"]) then
        match f["rating"]
        case JObj(g) => Success(if "average" in g then g["average"] else Unknown)
        case _ => Failure(AttributeError)
      else Success(Unknown)
    case _ => Failure(AttributeError)
  }

  /** The body of the per-record `try`: the fields are read in the source's
      order, so the first failing read decides the exception. */
  function ReadProduct(p: Json): (r: Result<Summary, PyError>)
    ensures r.Success? <==> p.JObj? && HasFields(p.fields) && !BadRating(p.fields)
    ensures r.Success? ==> && r.value.name == p.fields["name"]
                           && r.value.price == p.fields["price"]
                           && Rating(p) == Success(r.value.rating)
    ensures r.Success? ==> (r.value.availability == InStock <==> Truthy(p.fields["IsAvailable"]))
    ensures r.Success? ==> (r.value.shipping == FreeShipping <==> Truthy(p.fields["isFreeShipping"]))
    ensures r == Failure(AttributeError) <==>
              p.JObj? && "name" in p.fields && "price" in p.fields && "mainAttribute" in p.fields && BadRating(p.fields)
    ensures r.Failure? && !r.error.AttributeError? ==>
              (r.error == TypeError && !p.JObj?) || (r.error.KeyError? && p.JObj? && !HasFields(p.fields))
    ensures !p.JObj? ==> r == Failure(TypeError)
    ensures p.JObj? && "name" !in p.fields ==> r == Failure(KeyError(JStr("name")))
    ensures p.JObj? && "name" in p.fields && "price" !in p.fields ==> r == Failure(KeyError(JStr("price")))
    ensures p.JObj? && "name" in p.fields && "price" in p.fields && "mainAttribute" !in p.fields
            ==> r == Failure(KeyError(JStr("mainAttribute")))
    ensures p.JObj? && "name" in p.fields && "price" in p.fields && "mainAttribute" in p.fields
            && !BadRating(p.fields) && "IsAvailable" !in p.fields
            ==> r == Failure(KeyError(JStr("IsAvailable")))
    ensures p.JObj? && "name" in p.fields && "price" in p.fields && "mainAttribute" in p.fields
            && !BadRating(p.fields) && "IsAvailable" in p.fields && "isFreeShipping" !in p.fields
            ==> r == Failure(KeyError(JStr("isFreeShipping")))
  {
    var name :- Subscript(p, "name");
    var price :- Subscript(p, "price");
    var mainAttribute :- Subscript(p, "mainAttribute");
    var rating :- Rating(p);
    var isAvailable :- Subscript(p, "IsAvailable");
    var isFreeShipping :- Subscript(p, "isFreeShipping");
    Success(Summary(
      name, price, rating,
      if Truthy(isAvailable) then InStock else OutOfStock,
      if Truthy(isFreeShipping) then FreeShipping else NoFreeShipping))
  }

  /** What the `try`/`except` makes of one record. */
  datatype Outcome = Rendered(summary: Summary) | Skipped | Raised(error: PyError)

  function Guarded(h: Handler, p: Json): (r: Outcome)
    ensures r.Rendered? <==> ReadProduct(p).Success?
    ensures r.Skipped? <==> ReadProduct(p).Failure? && Catches(h, ReadProduct(p).error)
    ensures r.Rendered? ==> r.summary == ReadProduct(p).value
    ensures r.Raised? ==> r.error == ReadProduct(p).error
  {
    match ReadProduct(p)
    case Success(s) => Rendered(s)
    case Failure(e) => if Catches(h, e) then Skipped else Raised(e)
  }

  /** No record raises an exception the handler lets through. */
  predicate NoneRaised(h: Handler, items: seq<Json>) {
    forall i :: 0 <= i < |items| ==> !Guarded(h, items[i]).Raised?
  }

  /** The handler skips every record. */
  predicate AllSkipped(h: Handler, items: seq<Json>) {
    forall i :: 0 <= i < |items| ==> Guarded(h, items[i]).Skipped?
  }

  /** The loop over the records: skipped records contribute nothing, the
      first uncaught exception aborts the whole loop. */
  function Collect(h: Handler, items: seq<Json>): (r: Result<seq<Summary>, PyError>)
    ensures r.Success? <==> NoneRaised(h, items)
    ensures r.Success? ==> |r.value| <= |items|
    ensures r == Success([]) <==> AllSkipped(h, items)
    ensures r.Failure? ==>
              exists k :: 0 <= k < |items| && Guarded(h, items[k]) == Raised(r.error)
                          && forall i :: 0 <= i < k ==> !Guarded(h, items[i]).Raised?
  {
    if |items| == 0 then Success([])
    else
      var rest := Collect(h, items[1..]);
      assert forall i :: 1 <= i < |items| ==> items[i] == items[1..][i - 1];
      match Guarded(h, items[0])
      case Raised(e) => Failure(e)
      case Skipped => rest
      case Rendered(s) =>
        var tail :- rest;
        Success([s] + tail)
  }

  /** The records examined: the first `Cap` entries of `result["products"]`. */
  function FirstRecords(result: Json): (r: Result<seq<Json>, PyError>)
    ensures r.Success? ==> |r.value| <= Cap
    ensures result.JObj? && "products" in result.fields && result.fields["products"].JArr? ==>
              var items := result.fields["products"].items;
              r == Success(items[..if |items| < Cap then |items| else Cap])
    ensures r.Success? <==> result.JObj? && "products" in result.fields
                            && (result.fields["products"].JArr? || result.fields["products"].JStr?)
    ensures result.JObj? && "products" !in result.fields ==> r == Failure(KeyError(JStr("products")))
  {
    var products :- Subscript(result, "products");
    Head(products, Cap)
  }

  function RenderAll(render: Summary -> string, ss: seq<Summary>): (r: seq<string>)
    ensures |r| == |ss|
    ensures forall i :: 0 <= i < |ss| ==> r[i] == render(ss[i])
  {
    seq(|ss|, i requires 0 <= i < |ss| => render(ss[i]))
  }

  /** The lines `get_product_details` joins, or the exception it lets
      escape. */
  function Report(h: Handler, query: string, result: Json, render: Summary -> string): (r: Result<seq<string>, PyError>)
    ensures !Truthy(result) ==> r == Success([NoProductsMessage(query)])
    ensures r.Success? ==> 1 <= |r.value| <= Cap
    ensures Truthy(result) && FirstRecords(result).Failure? ==> r == Failure(FirstRecords(result).error)
    ensures Truthy(result) && FirstRecords(result).Success? ==>
              (r.Success? <==> NoneRaised(h, FirstRecords(result).value))
  {
    if !Truthy(result) then Success([NoProductsMessage(query)])
    else
      var records :- FirstRecords(result);
      var summaries :- Collect(h, records);
      if |summaries| == 0 then Success([NoValidMessage(query)])
      else Success(RenderAll(render, summaries))
  }

  /** `get_product_details`: the report's lines joined by newlines. When no
      line contains a newline, splitting the text gives the lines back. */
  function Format(h: Handler, query: string, result: Json, render: Summary -> string): (r: Result<string, PyError>)
    ensures r.Success? <==> Report(h, query, result, render).Success?
    ensures r.Failure? ==> r.error == Report(h, query, result, render).error
    ensures r.Success? && NewlineFree(Report(h, query, result, render).value) ==>
              Split(r.value, Newline) == Report(h, query, result, render).value
  {
    var lines :- Report(h, query, result, render);
    if NewlineFree(lines) then SplitJoin(lines, Newline); Success(Join(lines, Newline))
    else Success(Join(lines, Newline))
  }

  /** Sequential composition of two passes of the loop. */
  function Then(x: Result<seq<Summary>, PyError>, y: Result<seq<Summary>, PyError>): Result<seq<Summary>, PyError> {
    match x
    case Failure(e) => Failure(e)
    case Success(u) =>
      match y
      case Failure(e) => Failure(e)
      case Success(v) => Success(u + v)
  }

  /** The loop distributes over concatenation: the records of `a` are
      handled first, and an exception there aborts before `b` is looked at. */
  lemma {:induction false} CollectAppend(h: Handler, a: seq<Json>, b: seq<Json>)
    ensures Collect(h, a + b) == Then(Collect(h, a), Collect(h, b))
  {
    if |a| == 0 {
      assert a + b == b;
      if Collect(h, b).Success? {
        assert [] + Collect(h, b).value == Collect(h, b).value;
      }
    } else {
      var ab := a + b;
      assert ab[0] == a[0];
      assert ab[1..] == a[1..] + b;
      CollectAppend(h, a[1..], b);
      var g := Guarded(h, a[0]);
      if g.Rendered? {
        var x := Collect(h, a[1..]);
        var y := Collect(h, b);
        if x.Success? && y.Success? {
          assert [g.summary] + (x.value + y.value) == ([g.summary] + x.value) + y.value;
        }
      }
    }
  }

  /** A record the handler skips leaves the outcome for the other records
      exactly as it would be without it. */
  lemma SkippedRecordIsTransparent(h: Handler, a: seq<Json>, p: Json, b: seq<Json>)
    requires Guarded(h, p).Skipped?
    ensures Collect(h, a + [p] + b) == Collect(h, a + b)
  {
    CollectAppend(h, a + [p], b);
    CollectAppend(h, a, [p]);
    CollectAppend(h, a, b);
    if Collect(h, a).Success? {
      assert Collect(h, a).value + [] == Collect(h, a).value;
    }
  }

  /** When every record reads without error, each contributes exactly one
      summary, in input order. */
  lemma {:induction false} ReadableRecordsAllRendered(h: Handler, items: seq<Json>)
    requires forall i :: 0 <= i < |items| ==> ReadProduct(items[i]).Success?
    ensures Collect(h, items).Success? && |Collect(h, items).value| == |items|
    ensures forall i :: 0 <= i < |items| ==> Collect(h, items).value[i] == ReadProduct(items[i]).value
  {
    if |items| > 0 {
      var tail := items[1..];
      assert forall i :: 0 <= i < |tail| ==> tail[i] == items[i + 1];
      ReadableRecordsAllRendered(h, tail);
      ReadableIsRendered(h, items[0]);
      assert Collect(h, items) == Success([ReadProduct(items[0]).value] + Collect(h, tail).value);
    }
  }

  /** A record that reads without error is rendered from what was read. */
  lemma ReadableIsRendered(h: Handler, p: Json)
    requires ReadProduct(p).Success?
    ensures Guarded(h, p) == Rendered(ReadProduct(p).value)
  {
  }

  /** The report on a `products` list whose examined records all read
      without error: one line per record, rendered from record i, in input
      order, taken from the first `Cap` entries. */
  lemma ReadableRecordsReport(h: Handler, query: string, f: map<string, Json>, items: seq<Json>,
                              render: Summary -> string)
    requires |items| >= 1
    requires forall i :: 0 <= i < |items| && i < Cap ==> ReadProduct(items[i]).Success?
    ensures var n := if |items| < Cap then |items| else Cap;
            var r := Report(h, query, JObj(f["products" := JArr(items)]), render);
            r.Success? && |r.value| == n
            && forall i :: 0 <= i < n ==> r.value[i] == render(ReadProduct(items[i]).value)
  {
    var n := if |items| < Cap then |items| else Cap;
    var rs := items[..n];
    assert forall i :: 0 <= i < |rs| ==> rs[i] == items[i];
    ReadableRecordsAllRendered(h, rs);
  }

  /** A truthy result whose examined records are all skipped (or that has
      none) gives the single "no valid product" message. */
  lemma AllSkippedGivesNoValid(h: Handler, query: string, result: Json, render: Summary -> string)
    requires Truthy(result) && FirstRecords(result).Success?
    requires AllSkipped(h, FirstRecords(result).value)
    ensures Report(h, query, result, render) == Success([NoValidMessage(query)])
  {
  }

  /** Entries of `products` at index `Cap` or beyond never affect the
      output. */
  lemma OnlyFirstFiveMatter(h: Handler, query: string, f: map<string, Json>, a: seq<Json>, b: seq<Json>,
                            render: Summary -> string)
    requires |a| >= Cap
    ensures Report(h, query, JObj(f["products" := JArr(a + b)]), render)
         == Report(h, query, JObj(f["products" := JArr(a)]), render)
  {
    assert (a + b)[..Cap] == a[..Cap];
  }

  /** `mainAttribute` must be present, but its value changes nothing. */
  lemma MainAttributeIgnored(f: map<string, Json>, v: Json)
    requires "mainAttribute" in f
    ensures ReadProduct(JObj(f["mainAttribute" := v])) == ReadProduct(JObj(f))
  {
  }

  /** As written, a record without `name` is not skipped: its `KeyError`
      escapes and the whole call fails, even when other records are fine. */
  lemma AsWrittenMissingNameAborts(query: string, good: Json, render: Summary -> string)
    requires ReadProduct(good).Success?
    ensures Report(AsWritten, query, JObj(map["products" := JArr([good, JObj(map[])])]), render)
         == Failure(KeyError(JStr("name")))
  {
    var rs := [good, JObj(map[])];
    assert rs[..2] == rs;
    assert FirstRecords(JObj(map["products" := JArr(rs)])) == Success(rs);
    assert Guarded(AsWritten, rs[1]) == Raised(KeyError(JStr("name")));
  }

  /** With the intended handler, records lacking a field are skipped: a
      result whose every record lacks `name` gives the "no valid product"
      message instead of failing. */
  lemma IntendedSkipsMissingFields(query: string, f: map<string, Json>, items: seq<Json>, render: Summary -> string)
    requires forall i :: 0 <= i < |items| ==> items[i].JObj? && "name" !in items[i].fields
    ensures Report(Intended, query, JObj(f["products" := JArr(items)]), render)
         == Success([NoValidMessage(query)])
  {
  }

  /** The input of the finding under the corrected handler: the record
      without `name` is skipped and the complete record's line is the whole
      report. */
  lemma IntendedKeepsGoodRecord(query: string, good: Json, render: Summary -> string)
    requires ReadProduct(good).Success?
    ensures Report(Intended, query, JObj(map["products" := JArr([good, JObj(map[])])]), render)
         == Success([render(ReadProduct(good).value)])
  {
    var rs := [good, JObj(map[])];
    assert rs[..2] == rs;
    assert FirstRecords(JObj(map["products" := JArr(rs)])) == Success(rs);
    assert Guarded(Intended, rs[1]) == Skipped;
    SkippedRecordIsTransparent(Intended, [good], JObj(map[]), []);
    assert [good] + [JObj(map[])] + [] == rs;
    assert [good] + [] == [good];
    ReadableRecordsAllRendered(Intended, [good]);
    var sm := ReadProduct(good).value;
    assert Collect(Intended, [good]).value == [sm];
    assert Collect(Intended, rs) == Success([sm]);
    assert RenderAll(render, [sm]) == [render(sm)];
  }

  /** What one record adds to the loop's result. */
  function Single(o: Outcome): Result<seq<Summary>, PyError> {
    match o
    case Rendered(s) => Success([s])
    case Skipped => Success([])
    case Raised(e) => Failure(e)
  }

  /** One more iteration of the loop. */
  lemma CollectStep(h: Handler, rs: seq<Json>, i: nat)
    requires i < |rs|
    ensures Collect(h, rs[..i + 1]) == Then(Collect(h, rs[..i]), Single(Guarded(h, rs[i])))
  {
    assert rs[..i + 1] == rs[..i] + [rs[i]];
    CollectAppend(h, rs[..i], [rs[i]]);
    var one := [rs[i]];
    assert one[1..] == [];
    var o := Guarded(h, rs[i]);
    if o.Rendered? {
      assert [o.summary] + [] == [o.summary];
    }
    assert Collect(h, one) == Single(o);
  }

  /** Once the loop has failed, the remaining records change nothing. */
  lemma CollectAborted(h: Handler, rs: seq<Json>, i: nat)
    requires i <= |rs| && Collect(h, rs[..i]).Failure?
    ensures Collect(h, rs) == Collect(h, rs[..i])
  {
    assert rs[..i] + rs[i..] == rs;
    CollectAppend(h, rs[..i], rs[i..]);
  }

  /** The lines collected so far, after one more record. */
  function Append(details: seq<string>, o: Outcome, render: Summary -> string): seq<string> {
    if o.Rendered? then details + [render(o.summary)] else details
  }

  /** One iteration of the source's loop keeps the collected lines equal to
      the rendered summaries of the records handled so far, or ends the
      whole loop with the record's exception. */
  lemma LoopStep(h: Handler, rs: seq<Json>, i: nat, render: Summary -> string, details: seq<string>)
    requires i < |rs| && Collect(h, rs[..i]).Success?
    requires details == RenderAll(render, Collect(h, rs[..i]).value)
    ensures Guarded(h, rs[i]).Raised? ==> Collect(h, rs) == Failure(Guarded(h, rs[i]).error)
    ensures !Guarded(h, rs[i]).Raised? ==>
              && Collect(h, rs[..i + 1]).Success?
              && Append(details, Guarded(h, rs[i]), render) == RenderAll(render, Collect(h, rs[..i + 1]).value)
  {
    var o := Guarded(h, rs[i]);
    var x := Collect(h, rs[..i]).value;
    CollectStep(h, rs, i);
    if o.Raised? {
      CollectAborted(h, rs, i + 1);
    } else if o.Rendered? {
      assert Collect(h, rs[..i + 1]) == Success(x + [o.summary]);
    } else {
      assert x + [] == x;
    }
  }

  /** The loop of the source over the examined records: a line is appended
      for each readable record, and the first uncaught exception returns. */
  method CollectLines(h: Handler, rs: seq<Json>, render: Summary -> string)
    returns (r: Result<seq<string>, PyError>)
    ensures r.Success? <==> Collect(h, rs).Success?
    ensures r.Success? ==> r.value == RenderAll(render, Collect(h, rs).value)
    ensures r.Failure? ==> r.error == Collect(h, rs).error
  {
    var details: seq<string> := [];
    var i := 0;
    assert rs[..0] == [];
    while i < |rs|
      invariant 0 <= i <= |rs|
      invariant Collect(h, rs[..i]).Success?
      invariant details == RenderAll(render, Collect(h, rs[..i]).value)
    {
      var o := Guarded(h, rs[i]);
      LoopStep(h, rs, i, render, details);
      if o.Raised? {
        assert Collect(h, rs) == Failure(o.error);
        return Failure(o.error);
      }
      details := Append(details, o, render);
      i := i + 1;
    }
    assert rs[..i] == rs;
    assert Collect(h, rs) == Collect(h, rs[..i]);
    return Success(details);
  }

  /** The formatter as the source writes it, from the truthiness test to the
      final join. */
  method FormatProducts(h: Handler, query: string, result: Json, render: Summary -> string)
    returns (r: Result<string, PyError>)
    ensures r == Format(h, query, result, render)
  {
    if !Truthy(result) {
      return Success(NoProductsMessage(query));
    }
    var records := FirstRecords(result);
    if records.Failure? {
      return Failure(records.error);
    }
    var details := CollectLines(h, records.value, render);
    if details.Failure? {
      return Failure(details.error);
    }
    if |details.value| == 0 {
      return Success(NoValidMessage(query));
    }
    return Success(Join(details.value, Newline));
  }

  /** The text is the report's lines joined by newlines. */
  lemma FormatJoinsReport(h: Handler, query: string, result: Json, render: Summary -> string)
    requires Report(h, query, result, render).Success?
    ensures Format(h, query, result, render) == Success(Join(Report(h, query, result, render).value, Newline))
  {
  }
}

=== FILE: py_json.dfy ===
/** JSON-like values as a Python program sees them after decoding, together
    with the few Python operations the core applies to them: truthiness,
    `len`, `v[key]`, `v[i]` and `v[:n]`. Each operation that can raise in
    Python returns the exception as a `Failure`. */
module PyJson {
  import opened Wrappers

  /** A decoded JSON value. Object keys are strings, as in JSON. A number is
      a real, so that `price` or an average rating such as 4.5 is kept as is;
      Python's int and float are both covered. */
  datatype Json =
    | JNull
    | JBool(b: bool)
    | JNum(n: real)
    | JStr(s: string)
    | JArr(items: seq<Json>)
    | JObj(fields: map<string, Json>)

  /** The Python exceptions the core can raise on such values. */
  datatype PyError =
    | KeyError(key: Json)
    | TypeError
    | AttributeError
    | IndexError

  /** Python's `bool(v)`: None, False, 0, 0.0 and empty containers are false. */
  predicate Truthy(v: Json) {
    match v
    case JNull => false
    case JBool(b) => b
    case JNum(n) => n != 0.0
    case JStr(s) => |s| > 0
    case JArr(a) => |a| > 0
    case JObj(m) => |m| > 0
  }

  /** Python's `len(v)`; numbers, booleans and None have no length. */
  function Len(v: Json): (r: Result<nat, PyError>)
    ensures r.Success? <==> (v.JStr? || v.JArr? || v.JObj?)
    ensures r.Success? ==> (r.value > 0 <==> Truthy(v))
  {
    match v
    case JStr(s) => Success(|s|)
    case JArr(a) => Success(|a|)
    case JObj(m) => Success(|m|)
    case _ => Failure(TypeError)
  }

  /** Python's `v[key]` with a string key: only a dict can be subscripted by
      a string, and a missing key raises `KeyError`. */
  function Subscript(v: Json, key: string): (r: Result<Json, PyError>)
    ensures r.Success? <==> v.JObj? && key in v.fields
    ensures r.Success? ==> r.value == v.fields[key]
    ensures v.JObj? && key !in v.fields ==> r == Failure(KeyError(JStr(key)))
    ensures !v.JObj? ==> r == Failure(TypeError)
  {
    match v
    case JObj(m) => if key in m then Success(m[key]) else Failure(KeyError(JStr(key)))
    case _ => Failure(TypeError)
  }

  /** Python's `v[i]` with an integer index, negative indices counting from
      the end. A one-character string is what indexing a string yields. */
  function Index(v: Json, i: int): (r: Result<Json, PyError>)
    ensures v.JArr? && 0 <= i < |v.items| ==> r == Success(v.items[i])
    ensures v.JArr? && -|v.items| <= i < 0 ==> r == Success(v.items[|v.items| + i])
    ensures v.JStr? && -|v.s| <= i < |v.s| ==> r.Success? && r.value.JStr? && |r.value.s| == 1
    ensures r.Success? ==> (v.JArr? || v.JStr?)
  {
    match v
    case JArr(a) =>
      if -|a| <= i < |a| then Success(a[if i < 0 then |a| + i else i]) else Failure(IndexError)
    case JStr(s) =>
      if -|s| <= i < |s| then Success(JStr([s[if i < 0 then |s| + i else i]])) else Failure(IndexError)
    case JObj(_) => Failure(KeyError(JNum(i as real)))
    case _ => Failure(TypeError)
  }

  /** Iterating over Python's `v[:n]`: a list yields its first `n` items and a
      string its first `n` characters, each as a one-character string. Any
      other value cannot be sliced. */
  function Head(v: Json, n: nat): (r: Result<seq<Json>, PyError>)
    ensures r.Success? <==> (v.JArr? || v.JStr?)
    ensures v.JArr? ==> r == Success(v.items[..if |v.items| < n then |v.items| else n])
    ensures v.JStr? ==> |r.value| == (if |v.s| < n then |v.s| else n)
                        && forall i :: 0 <= i < |r.value| ==> r.value[i] == JStr([v.s[i]])
  {
    match v
    case JArr(a) => Success(a[..if |a| < n then |a| else n])
    case JStr(s) =>
      var k := if |s| < n then |s| else n;
      Success(seq(k, i requires 0 <= i < k => JStr([s[i]])))
    case _ => Failure(TypeError)
  }
}

=== FILE: py_text.dfy ===
/** The Python string operations the core relies on: `str.isspace`,
    `str.strip()`, `str.split(sep)` and `sep.join(parts)` for a
    one-character separator. */
module PyText {

  const Newline: char := '\n'

  /** Python's `str.isspace` for one character: general category Zs, or
      bidirectional class WS, B or S in the Unicode database. */
  predicate IsSpace(c: char) {
    var n := c as int;
    || (0x09 <= n <= 0x0D)
    || (0x1C <= n <= 0x20)
    || n == 0x85 || n == 0xA0 || n == 0x1680
    || (0x2000 <= n <= 0x200A)
    || n == 0x2028 || n == 0x2029 || n == 0x202F || n == 0x205F || n == 0x3000
  }

  /** Every character of `s` is whitespace (vacuously true of ""). */
  predicate Blank(s: string) {
    forall i :: 0 <= i < |s| ==> IsSpace(s[i])
  }

  /** The characters of `s` from `lo` up to `hi` are all whitespace. */
  predicate SpaceBetween(s: string, lo: int, hi: int)
    requires 0 <= lo <= hi <= |s|
  {
    forall k :: lo <= k < hi ==> IsSpace(s[k])
  }

  /** Every part is blank. */
  predicate AllBlank(parts: seq<string>) {
    forall i :: 0 <= i < |parts| ==> Blank(parts[i])
  }

  /** No part holds a newline. */
  predicate NewlineFree(parts: seq<string>) {
    forall i :: 0 <= i < |parts| ==> Newline !in parts[i]
  }

  /** `s` neither starts nor ends with whitespace. */
  predicate Stripped(s: string) {
    s == [] || (!IsSpace(s[0]) && !IsSpace(s[|s| - 1]))
  }

  /** The number of whitespace characters `s` starts with. */
  function LeadingSpaces(s: string): (n: nat)
    ensures n <= |s| && SpaceBetween(s, 0, n)
    ensures n < |s| ==> !IsSpace(s[n])
  {
    if |s| > 0 && IsSpace(s[0]) then
      var tail := s[1..];
      assert forall k :: 0 <= k < |tail| ==> tail[k] == s[k + 1];
      1 + LeadingSpaces(tail)
    else 0
  }

  /** The number of whitespace characters `s` ends with. */
  function TrailingSpaces(s: string): (n: nat)
    ensures n <= |s| && SpaceBetween(s, |s| - n, |s|)
    ensures n < |s| ==> !IsSpace(s[|s| - n - 1])
  {
    if |s| > 0 && IsSpace(s[|s| - 1]) then
      var init := s[..|s| - 1];
      assert forall k :: 0 <= k < |init| ==> init[k] == s[k];
      1 + TrailingSpaces(init)
    else 0
  }

  /** Python's `s.strip()`: the middle of `s` left after removing leading and
      trailing whitespace. */
  function Strip(s: string): (r: string)
    ensures exists i, j :: 0 <= i <= j <= |s| && r == s[i..j] && SpaceBetween(s, 0, i) && SpaceBetween(s, j, |s|)
    ensures Stripped(r)
    ensures r == [] <==> Blank(s)
    ensures Stripped(s) ==> r == s
  {
    var i := LeadingSpaces(s);
    if i == |s| then
      assert s[i..i] == "";
      ""
    else
      var j := |s| - TrailingSpaces(s);
      assert i < j;
      assert !IsSpace(s[i]);
      s[i..j]
  }

  /** `sep.join(parts)` for a one-character separator. */
  function Join(parts: seq<string>, sep: char): string
  {
    if |parts| == 0 then ""
    else if |parts| == 1 then parts[0]
    else parts[0] + [sep] + Join(parts[1..], sep)
  }

  /** `s.split(sep)` for a one-character separator: the maximal pieces of `s`
      between occurrences of `sep`, always at least one. Joining the pieces
      with `sep` gives `s` back. */
  function Split(s: string, sep: char): (r: seq<string>)
    ensures |r| >= 1
    ensures forall i :: 0 <= i < |r| ==> sep !in r[i]
    ensures Join(r, sep) == s
  {
    if |s| == 0 then [""]
    else
      var rest := Split(s[1..], sep);
      if s[0] == sep then
        assert Join([""] + rest, sep) == "" + [sep] + Join(rest, sep) by {
          assert ([""] + rest)[1..] == rest;
        }
        assert [s[0]] + s[1..] == s;
        [""] + rest
      else
        var r := [[s[0]] + rest[0]] + rest[1..];
        assert r[1..] == rest[1..];
        assert Join(r, sep) == s by {
          if |rest| == 1 {
            assert [s[0]] + s[1..] == s;
          } else {
            assert Join(rest, sep) == rest[0] + [sep] + Join(rest[1..], sep);
            assert [s[0]] + s[1..] == s;
          }
        }
        r
  }

  /** Splitting a join gives the parts back when none contains the
      separator. */
  lemma {:induction false} SplitJoin(parts: seq<string>, sep: char)
    requires |parts| >= 1
    requires forall i :: 0 <= i < |parts| ==> sep !in parts[i]
    ensures Split(Join(parts, sep), sep) == parts
  {
    if |parts| == 1 {
      SplitNoSeparator(parts[0], sep);
    } else {
      SplitJoin(parts[1..], sep);
      SplitAfterPrefix(parts[0], Join(parts[1..], sep), sep);
      assert [parts[0]] + parts[1..] == parts;
    }
  }

  /** A string without the separator splits into itself. */
  lemma {:induction false} SplitNoSeparator(s: string, sep: char)
    requires sep !in s
    ensures Split(s, sep) == [s]
  {
    if |s| > 0 {
      SplitNoSeparator(s[1..], sep);
      assert [s[0]] + s[1..] == s;
    }
  }

  /** A separator-free prefix followed by a separator becomes the first
      piece, and the rest splits on its own. */
  lemma {:induction false} SplitAfterPrefix(p: string, t: string, sep: char)
    requires sep !in p
    ensures Split(p + [sep] + t, sep) == [p] + Split(t, sep)
  {
    if |p| == 0 {
      assert p + [sep] + t == [sep] + t;
      assert ([sep] + t)[1..] == t;
    } else {
      SplitAfterPrefix(p[1..], t, sep);
      var s := p + [sep] + t;
      assert s[1..] == p[1..] + [sep] + t;
      assert [p[0]] + p[1..] == p;
    }
  }

  /** A separator that is itself whitespace makes a join blank exactly when
      every part is. */
  lemma {:induction false} JoinBlank(parts: seq<string>, sep: char)
    requires IsSpace(sep)
    ensures Blank(Join(parts, sep)) <==> AllBlank(parts)
  {
    if |parts| > 1 {
      JoinBlank(parts[1..], sep);
      var j := Join(parts, sep);
      assert j == parts[0] + [sep] + Join(parts[1..], sep);
      if Blank(j) {
        forall i | 0 <= i < |parts| ensures Blank(parts[i]) {
          if i == 0 {
            assert forall k :: 0 <= k < |parts[0]| ==> parts[0][k] == j[k];
          } else {
            var rest := Join(parts[1..], sep);
            assert forall k :: 0 <= k < |rest| ==> rest[k] == j[|parts[0]| + 1 + k];
            assert parts[i] == parts[1..][i - 1];
          }
        }
      }
      if AllBlank(parts) {
        assert forall i :: 0 <= i < |parts[1..]| ==> Blank(parts[1..][i]) by {
          forall i | 0 <= i < |parts[1..]| ensures Blank(parts[1..][i]) {
            assert parts[1..][i] == parts[i + 1];
          }
        }
      }
    }
  }
}

=== FILE: search_args.dfy ===
/** The argument schema of the product-search tool (`ProductSearchArgs`) and
    the marshaling of its fields into a marketplace search request
    (`search_products_example`). Validation only fills defaults: there is no
    range, sign or cross-field check. */
module SearchArgs {
  import opened Wrappers

  /** Default of `minRating` in the schema and in the search function. The
      schema's own description text says 3; the value in force is 4. */
  const DefaultMinRating: int := 4
  /** Default of `freeShipping`: 0 means all products, 1 free shipping only. */
  const DefaultFreeShipping: int := 0

  /** The fields a tool call supplies; `None` means the field was omitted. */
  datatype ArgsInput = ArgsInput(
    query: Option<string>,
    minPrice: Option<int>,
    maxPrice: Option<int>,
    minRating: Option<int>,
    freeShipping: Option<int>)

  /** A validated argument record. An absent price bound is `None`. */
  datatype ProductSearchArgs = ProductSearchArgs(
    query: string,
    minPrice: Option<int>,
    maxPrice: Option<int>,
    minRating: int,
    freeShipping: int)

  datatype ValidationError = MissingField(field: string)

  /** Builds the record from a tool call: `query` is required, every other
      field takes its default when omitted. */
  function Validate(input: ArgsInput): (r: Result<ProductSearchArgs, ValidationError>)
    ensures r.Success? <==> input.query.Some?
    ensures r.Failure? ==> r.error == MissingField("query")
    ensures r.Success? ==> r.value.query == input.query.value
    ensures r.Success? ==> r.value.minPrice == input.minPrice && r.value.maxPrice == input.maxPrice
    ensures r.Success? ==> r.value.minRating == (if input.minRating.Some? then input.minRating.value else DefaultMinRating)
    ensures r.Success? ==> r.value.freeShipping == (if input.freeShipping.Some? then input.freeShipping.value else DefaultFreeShipping)
  {
    match input.query
    case None => Failure(MissingField("query"))
    case Some(q) =>
      Success(ProductSearchArgs(
        q,
        input.minPrice,
        input.maxPrice,
        input.minRating.GetOr(DefaultMinRating),
        input.freeShipping.GetOr(DefaultFreeShipping)))
  }

  /** The tool call that supplies exactly the fields of `a` that are not
      absent prices. */
  function Supplied(a: ProductSearchArgs): ArgsInput {
    ArgsInput(Some(a.query), a.minPrice, a.maxPrice, Some(a.minRating), Some(a.freeShipping))
  }

  /** Validation accepts every record it can produce and changes nothing in
      it, so filling defaults twice is the same as filling them once. */
  lemma ValidateSupplied(a: ProductSearchArgs)
    ensures Validate(Supplied(a)) == Success(a)
  {
  }

  /** Filling defaults is idempotent. */
  lemma ValidateIdempotent(input: ArgsInput)
    requires input.query.Some?
    ensures Validate(Supplied(Validate(input).value)) == Validate(input)
  {
    ValidateSupplied(Validate(input).value);
  }

  /** Keyword arguments passed to the search function. The outer `None`
      means the keyword was not passed; `Some(None)` is an explicit Python
      `None` for a price bound. */
  datatype Kwargs = Kwargs(
    minPrice: Option<Option<int>>,
    maxPrice: Option<Option<int>>,
    minRating: Option<int>,
    freeShipping: Option<int>)

  /** The filter record of a marketplace search. */
  datatype Filters = Filters(freeShipping: int, maxPrice: Option<int>, minPrice: Option<int>, minRating: int)

  /** A marketplace search request: filters and the free-text query `q`. */
  datatype SearchRequest = SearchRequest(filters: Filters, q: string)

  /** The request `search_products_example(query, **kw)` sends: keywords not
      passed take the function's own parameter defaults. */
  function RequestFor(query: string, kw: Kwargs): (r: SearchRequest)
    ensures r.q == query
    ensures r.filters.minRating == (if kw.minRating.Some? then kw.minRating.value else DefaultMinRating)
    ensures r.filters.freeShipping == (if kw.freeShipping.Some? then kw.freeShipping.value else DefaultFreeShipping)
    ensures kw.minPrice.None? ==> r.filters.minPrice.None?
    ensures kw.maxPrice.None? ==> r.filters.maxPrice.None?
    ensures kw.minPrice.Some? ==> r.filters.minPrice == kw.minPrice.value
    ensures kw.maxPrice.Some? ==> r.filters.maxPrice == kw.maxPrice.value
  {
    SearchRequest(
      Filters(
        kw.freeShipping.GetOr(DefaultFreeShipping),
        kw.maxPrice.GetOr(None),
        kw.minPrice.GetOr(None),
        kw.minRating.GetOr(DefaultMinRating)),
      query)
  }

  /** The keywords a tool call forwards when only its supplied fields are
      passed on (the validated value of each). */
  function SuppliedKwargs(input: ArgsInput, a: ProductSearchArgs): Kwargs {
    Kwargs(
      if input.minPrice.Some? then Some(a.minPrice) else None,
      if input.maxPrice.Some? then Some(a.maxPrice) else None,
      if input.minRating.Some? then Some(a.minRating) else None,
      if input.freeShipping.Some? then Some(a.freeShipping) else None)
  }

  /** The keywords forwarded when every field of the record is passed on. */
  function AllKwargs(a: ProductSearchArgs): Kwargs {
    Kwargs(Some(a.minPrice), Some(a.maxPrice), Some(a.minRating), Some(a.freeShipping))
  }

  /** The search request for a validated record. Each field lands unchanged
      in its filter slot and the query in `q`: the record can be read back
      from the request. */
  function Marshal(a: ProductSearchArgs): (r: SearchRequest)
    ensures ArgsOf(r) == a
  {
    RequestFor(a.query, AllKwargs(a))
  }

  /** Reads a validated record back from a search request. */
  function ArgsOf(r: SearchRequest): ProductSearchArgs {
    ProductSearchArgs(r.q, r.filters.minPrice, r.filters.maxPrice, r.filters.minRating, r.filters.freeShipping)
  }

  /** Every search request is the marshaling of exactly one record. */
  lemma MarshalArgsOf(r: SearchRequest)
    ensures Marshal(ArgsOf(r)) == r
  {
  }

  /** The schema's defaults equal the search function's parameter defaults:
      forwarding only the supplied fields or every validated field sends the
      same request. */
  lemma DefaultsAgree(input: ArgsInput)
    requires input.query.Some?
    ensures var a := Validate(input).value;
            RequestFor(a.query, SuppliedKwargs(input, a)) == Marshal(a)
  {
  }

  /** Omitting a keyword and passing its default value send the same
      request. */
  lemma OmittedEqualsDefault(query: string, kw: Kwargs)
    ensures RequestFor(query, kw.(minRating := None)) == RequestFor(query, kw.(minRating := Some(DefaultMinRating)))
    ensures RequestFor(query, kw.(freeShipping := None)) == RequestFor(query, kw.(freeShipping := Some(DefaultFreeShipping)))
    ensures RequestFor(query, kw.(minPrice := None)) == RequestFor(query, kw.(minPrice := Some(None)))
    ensures RequestFor(query, kw.(maxPrice := None)) == RequestFor(query, kw.(maxPrice := Some(None)))
  {
  }

  /** Inverted or negative price bounds are accepted and sent unchanged. */
  lemma NoPriceRangeCheck(query: string, lo: int, hi: int)
    requires hi < lo || lo < 0 || hi < 0
    ensures var r := Validate(ArgsInput(Some(query), Some(lo), Some(hi), None, None));
            r.Success? && Marshal(r.value).filters.minPrice == Some(lo) && Marshal(r.value).filters.maxPrice == Some(hi)
  {
  }

  /** `minRating` outside 0..5 and `freeShipping` other than 0 or 1 are
      accepted and sent unchanged, although the field descriptions name
      those ranges. */
  lemma NoRatingOrShippingCheck(query: string, rating: int, shipping: int)
    requires rating < 0 || rating > 5 || shipping < 0 || shipping > 1
    ensures var r := Validate(ArgsInput(Some(query), None, None, Some(rating), Some(shipping)));
            r.Success? && Marshal(r.value).filters.minRating == rating && Marshal(r.value).filters.freeShipping == shipping
  {
  }
}

=== FILE: search_endpoint.dfy ===
/** The body of the `/search` endpoint (`search_products`): it awaits the
    agent, takes the observation of the agent's last intermediate step as
    the final text, and answers with that text's non-blank lines, or with an
    error payload when anything raised. The agent itself is an input: what
    its invocation returned, or the text of the exception it raised. */
module SearchEndpoint {
  import opened Wrappers
  import opened PyJson
  import opened PyText

  const StepsKey: string := "intermediate_steps"
  const SystemErrorPrefix: string := "System error: "

  /** The outcome of awaiting the agent: its output dict, or the `str()` of
      the `Exception` it raised. A `BaseException` that is not an
      `Exception` (a cancellation, an interrupt) escapes the endpoint's
      handler and sends no body; it is not an `Invocation`. */
  datatype Invocation = Returned(output: map<string, Json>) | Raised(message: string)

  /** The endpoint's answer. */
  datatype Response = Products(lines: seq<string>) | Error(message: string)

  /** The answer as the JSON object sent back: exactly one of the keys
      `products` and `error`. */
  function Body(r: Response): (b: map<string, Json>)
    ensures |b| == 1
    ensures "products" in b <==> r.Products?
    ensures "error" in b <==> r.Error?
    ensures r.Products? ==> b["products"] == JArr(seq(|r.lines|, i requires 0 <= i < |r.lines| => JStr(r.lines[i])))
    ensures r.Error? ==> b["error"] == JStr(r.message)
  {
    match r
    case Products(lines) => map["products" := JArr(seq(|lines|, i requires 0 <= i < |lines| => JStr(lines[i])))]
    case Error(m) => map["error" := JStr(m)]
  }

  /** A product line as the endpoint returns it: non-empty, without leading
      or trailing whitespace, and without a newline. */
  predicate IsCleanLine(l: string) {
    |l| > 0 && Stripped(l) && Newline !in l
  }

  /** The final text read from one step: the step's second component, when
      the step has more than one component and that component is a string.
      `len` and indexing follow Python, so a step that is not a sequence can
      raise. */
  function Observation(step: Json): (r: Result<Option<string>, PyError>)
    ensures step.JArr? && |step.items| > 1 && step.items[1].JStr? ==> r == Success(Some(step.items[1].s))
    ensures step.JArr? && |step.items| > 1 && !step.items[1].JStr? ==> r == Success(None)
    ensures step.JArr? && |step.items| <= 1 ==> r == Success(None)
    ensures r.Failure? <==> !(step.JArr? || step.JStr? || step.JObj?) || (step.JObj? && |step.fields| > 1)
    ensures step.JStr? && |step.s| > 1 ==> r == Success(Some([step.s[1]]))
    ensures step.JStr? && |step.s| <= 1 ==> r == Success(None)
    ensures step.JObj? && |step.fields| <= 1 ==> r == Success(None)
    ensures step.JObj? && |step.fields| > 1 ==> r == Failure(KeyError(JNum(1.0)))
    ensures !(step.JArr? || step.JStr? || step.JObj?) ==> r == Failure(TypeError)
  {
    var n :- Len(step);
    if n > 1 then
      var second :- Index(step, 1);
      Success(if second.JStr? then Some(second.s) else None)
    else Success(None)
  }

  /** `final_text`: only the last intermediate step is consulted, and only
      when the steps are present and truthy. */
  function FinalText(output: map<string, Json>): (r: Result<Option<string>, PyError>)
    ensures StepsKey !in output || !Truthy(output[StepsKey]) ==> r == Success(None)
    ensures StepsKey in output && output[StepsKey].JArr? && |output[StepsKey].items| > 0 ==>
              r == Observation(output[StepsKey].items[|output[StepsKey].items| - 1])
    ensures StepsKey in output && output[StepsKey].JStr? && |output[StepsKey].s| > 0 ==> r == Success(None)
    ensures StepsKey in output && output[StepsKey].JObj? && |output[StepsKey].fields| > 0 ==>
              r == Failure(KeyError(JNum(-1.0)))
    ensures StepsKey in output && (output[StepsKey].JNum? || output[StepsKey].JBool?) && Truthy(output[StepsKey]) ==>
              r == Failure(TypeError)
  {
    if StepsKey in output && Truthy(output[StepsKey]) then
      var last :- Index(output[StepsKey], -1);
      Observation(last)
    else Success(None)
  }

  /** Every line is clean. */
  predicate AllClean(lines: seq<string>) {
    forall i :: 0 <= i < |lines| ==> IsCleanLine(lines[i])
  }

  /** The stripped non-blank pieces, in order. */
  function KeepNonBlank(pieces: seq<string>): (r: seq<string>)
    ensures |r| <= |pieces|
    ensures NewlineFree(pieces) ==> AllClean(r)
    ensures r == [] <==> AllBlank(pieces)
  {
    if |pieces| == 0 then []
    else
      var tail := pieces[1..];
      var rest := KeepNonBlank(tail);
      assert AllBlank(pieces) <==> Blank(pieces[0]) && AllBlank(tail) by {
        assert forall i :: 1 <= i < |pieces| ==> pieces[i] == tail[i - 1];
      }
      assert NewlineFree(pieces) ==> NewlineFree(tail) by {
        assert forall i :: 1 <= i < |pieces| ==> pieces[i] == tail[i - 1];
      }
      var s := Strip(pieces[0]);
      if s == [] then
        rest
      else
        StripNewlineFree(pieces[0]);
        [s] + rest
  }

  /** Stripping never introduces a newline. */
  lemma StripNewlineFree(p: string)
    ensures Newline !in p ==> Newline !in Strip(p)
  {
  }

  /** `[line.strip() for line in text.split("\n") if line.strip()]`. Every
      line is clean, and there are none exactly when the text is blank. */
  function CleanLines(text: string): (r: seq<string>)
    ensures AllClean(r)
    ensures r == [] <==> Blank(text)
  {
    var pieces := Split(text, Newline);
    JoinBlank(pieces, Newline);
    KeepNonBlank(pieces)
  }

  /** The endpoint: an exception from the agent or from reading its output
      becomes the error payload; otherwise the final text's clean lines are
      the products, and no usable text gives an empty list. */
  function Respond(inv: Invocation, describe: PyError -> string): (r: Response)
    ensures inv.Raised? ==> r == Error(SystemErrorPrefix + inv.message)
    ensures r.Error? <==> inv.Raised? || FinalText(inv.output).Failure?
    ensures r.Products? ==> AllClean(r.lines)
    ensures inv.Returned? && FinalText(inv.output).Failure? ==>
              r == Error(SystemErrorPrefix + describe(FinalText(inv.output).error))
    ensures inv.Returned? && FinalText(inv.output) == Success(None) ==> r == Products([])
    ensures inv.Returned? && FinalText(inv.output).Success? && FinalText(inv.output).value.Some? ==>
              r == Products(CleanLines(FinalText(inv.output).value.value))
  {
    match inv
    case Raised(m) => Error(SystemErrorPrefix + m)
    case Returned(out) =>
      match FinalText(out)
      case Failure(e) => Error(SystemErrorPrefix + describe(e))
      case Success(t) => if t.Some? && |t.value| > 0 then Products(CleanLines(t.value)) else Products([])
  }

  /** Clean lines are kept as they are. */
  lemma {:induction false} KeepNonBlankClean(lines: seq<string>)
    requires AllClean(lines)
    ensures KeepNonBlank(lines) == lines
  {
    if |lines| > 0 {
      assert forall i :: 1 <= i < |lines| ==> lines[i] == lines[1..][i - 1];
      KeepNonBlankClean(lines[1..]);
      assert Strip(lines[0]) == lines[0];
      assert [lines[0]] + lines[1..] == lines;
    }
  }

  /** One piece gives its stripped form, or nothing when it is blank. */
  lemma KeepNonBlankSingle(p: string)
    ensures KeepNonBlank([p]) == if Blank(p) then [] else [Strip(p)]
  {
    assert [p][1..] == [];
  }

  /** The filter works piece by piece: the pieces of `a` come first and in
      order, then those of `b`. */
  lemma {:induction false} KeepNonBlankAppend(a: seq<string>, b: seq<string>)
    ensures KeepNonBlank(a + b) == KeepNonBlank(a) + KeepNonBlank(b)
  {
    if |a| > 0 {
      assert (a + b)[0] == a[0];
      assert (a + b)[1..] == a[1..] + b;
      KeepNonBlankAppend(a[1..], b);
      if Strip(a[0]) != [] {
        assert [Strip(a[0])] + (KeepNonBlank(a[1..]) + KeepNonBlank(b))
            == ([Strip(a[0])] + KeepNonBlank(a[1..])) + KeepNonBlank(b);
      }
    } else {
      assert a + b == b;
    }
  }

  /** Text made of newline-free pieces yields those pieces stripped, with
      the blank ones dropped, in their original order. */
  lemma CleanLinesOfPieces(pieces: seq<string>)
    requires |pieces| >= 1
    requires NewlineFree(pieces)
    ensures CleanLines(Join(pieces, Newline)) == KeepNonBlank(pieces)
  {
    SplitJoin(pieces, Newline);
  }

  /** A piece that needs stripping keeps its place: `"  a \nb"` yields
      `["a", "b"]`. The text is a parameter equal to the literal, rather than
      the literal itself, because Dafny unfolds a function applied to a
      literal eagerly, and unfolding `CleanLines` on this one exhausts the
      solver before the lemmas below are used. */
  lemma StrippedPiecesInOrder(text: string)
    requires text == "  a \nb"
    ensures CleanLines(text) == ["a", "b"]
  {
    var p, q := "  a ", "b";
    JoinPaddedLetter();
    CleanLinesOfPieces([p, q]);
    assert CleanLines(text) == KeepNonBlank([p, q]);
    assert [p] + [q] == [p, q];
    KeepNonBlankAppend([p], [q]);
    assert KeepNonBlank([p, q]) == KeepNonBlank([p]) + KeepNonBlank([q]);
    PaddedPieceKept(p);
    PlainPieceKept(q);
    assert KeepNonBlank([p]) == ["a"];
    assert KeepNonBlank([q]) == ["b"];
  }

  /** The padded piece of the example is kept, stripped. */
  lemma PaddedPieceKept(p: string)
    requires p == "  a "
    ensures KeepNonBlank([p]) == ["a"]
  {
    KeepNonBlankSingle(p);
    assert !Blank(p) by { assert !IsSpace(p[2]); }
    StripPaddedLetter();
  }

  /** The unpadded piece of the example is kept as it is. */
  lemma PlainPieceKept(q: string)
    requires q == "b"
    ensures KeepNonBlank([q]) == ["b"]
  {
    KeepNonBlankSingle(q);
    assert !Blank(q) by { assert !IsSpace(q[0]); }
    assert Stripped(q);
  }

  /** The text of the example is its two pieces joined by a newline. */
  lemma JoinPaddedLetter()
    ensures Join(["  a ", "b"], Newline) == "  a \nb"
    ensures NewlineFree(["  a ", "b"])
  {
    var ps := ["  a ", "b"];
    assert ps[1..] == ["b"];
    assert Join(ps, Newline) == ps[0] + [Newline] + "b";
  }

  /** `"  a ".strip()` is `"a"`. */
  lemma StripPaddedLetter()
    ensures Strip("  a ") == "a"
  {
    var s := "  a ";
    assert s[1..] == " a " && s[1..][1..] == "a ";
    assert LeadingSpaces("a ") == 0;
    assert LeadingSpaces(s) == 2;
    assert s[..3] == "  a";
    assert TrailingSpaces("  a") == 0;
    assert TrailingSpaces(s) == 1;
    assert s[2..3] == "a";
  }

  /** Round trip: joining clean lines with newlines and reading them back
      gives the same lines. */
  lemma CleanLinesOfJoin(lines: seq<string>)
    requires |lines| >= 1
    requires AllClean(lines)
    ensures CleanLines(Join(lines, Newline)) == lines
  {
    SplitJoin(lines, Newline);
    KeepNonBlankClean(lines);
  }

  /** Only the last intermediate step is consulted: the earlier steps never
      affect the response. */
  lemma OnlyLastStepConsulted(output: map<string, Json>, a: seq<Json>, b: seq<Json>, last: Json,
                              describe: PyError -> string)
    ensures Respond(Returned(output[StepsKey := JArr(a + [last])]), describe)
         == Respond(Returned(output[StepsKey := JArr(b + [last])]), describe)
  {
    assert (a + [last])[|a + [last]| - 1] == last;
    assert (b + [last])[|b + [last]| - 1] == last;
  }

  /** No steps, or a last step without a string observation, give an empty
      product list. */
  lemma NoObservationNoProducts(output: map<string, Json>, action: Json, observation: Json, describe: PyError -> string)
    requires !observation.JStr?
    ensures Respond(Returned(output[StepsKey := JArr([])]), describe) == Products([])
    ensures Respond(Returned(output - {StepsKey}), describe) == Products([])
    ensures Respond(Returned(output[StepsKey := JArr([JArr([action, observation])])]), describe) == Products([])
  {
    assert [JArr([action, observation])][0] == JArr([action, observation]);
  }

  /** A string observation in the last step is read back as its clean
      lines, whatever came before it. */
  lemma LastObservationResponse(output: map<string, Json>, earlier: seq<Json>, action: Json, text: string,
                                describe: PyError -> string)
    ensures Respond(Returned(output[StepsKey := JArr(earlier + [JArr([action, JStr(text)])])]), describe)
         == Products(CleanLines(text))
  {
    var last := JArr([action, JStr(text)]);
    var steps := earlier + [last];
    var out := output[StepsKey := JArr(steps)];
    assert steps[|steps| - 1] == last;
    assert Observation(last) == Success(Some(text));
    assert FinalText(out) == Success(Some(text));
  }

  /** Newline-free pieces joined by newlines and carried as the last step's
      observation come back stripped, blank ones dropped, in order. */
  lemma JoinedPiecesReachResponse(output: map<string, Json>, earlier: seq<Json>, action: Json, pieces: seq<string>,
                                  describe: PyError -> string)
    requires |pieces| >= 1
    requires NewlineFree(pieces)
    ensures Respond(Returned(output[StepsKey := JArr(earlier + [JArr([action, JStr(Join(pieces, Newline))])])]), describe)
         == Products(KeepNonBlank(pieces))
  {
    LastObservationResponse(output, earlier, action, Join(pieces, Newline), describe);
    CleanLinesOfPieces(pieces);
  }

  /** Clean lines joined by newlines and carried as the last step's
      observation come back as exactly those lines. */
  lemma JoinedLinesReachResponse(output: map<string, Json>, earlier: seq<Json>, action: Json, lines: seq<string>,
                                 describe: PyError -> string)
    requires |lines| >= 1
    requires AllClean(lines)
    ensures Respond(Returned(output[StepsKey := JArr(earlier + [JArr([action, JStr(Join(lines, Newline))])])]), describe)
         == Products(lines)
  {
    LastObservationResponse(output, earlier, action, Join(lines, Newline), describe);
    CleanLinesOfJoin(lines);
  }

}

=== FILE: wrappers.dfy ===
/** Failure-compatible wrappers used throughout the model: an optional value
    and a value-or-error result, both usable with `:-`. */
module Wrappers {

  datatype Option<+T> = None | Some(value: T) {

    /** The wrapped value, or `default` when there is none. */
    function GetOr(default: T): T {
      match this
      case Some(v) => v
      case None => default
    }
  }

  datatype Result<+R, +E> = Success(value: R) | Failure(error: E) {

    predicate IsFailure() {
      Failure?
    }

    function PropagateFailure<U>(): Result<U, E>
      requires Failure?
    {
      Failure(error)
    }

    function Extract(): R
      requires Success?
    {
      value
    }
  }
}
